=== FILE: README.md ===
# pitaya-rs RPC client and metrics boundary, in Dafny

This project models the inter-node RPC client of pitaya-rs (`NatsClient`, the
NATS-backed implementation of the `RpcClient` trait) and the metrics boundary
it is instrumented through (`DummyReporter`, `exponential_buckets`,
`record_histogram_duration`, `add_to_gauge`).

The client is an immutable value `NatsClient(config, connection)` whose
connection is `None` or `Some(conn)`. `New`, `Connect` and `Close` move it
between those two states. `Call`, `KickUser` and `PushToUser` are pure
functions of the client, their arguments and an `Env`. Each returns its
`Result` together with the list of transport requests it issued, so "no
request was made" and "exactly one request was made" can be stated.

`Env` gathers the collaborators this code calls but does not define, as
arbitrary total functions. These are the topic builders of `utils`
(`topic_for_server`, `user_kick_topic`, `user_messages_topic`), the protobuf
encoders and decoders, `nats::connect` and `Connection::request_timeout`.
Every property holds for every choice of them. The two NATS functions also
take the moment of the call, which counts the client operations before it.
So a retried connect may succeed, and each connect may return a new handle.

`Session.Run` drives a client through a script of operations. This states the
facts that span several calls: no traffic without a connection, one request
per RPC operation at most, and every request on a connection the client holds.

Files: `wrappers.dfy` (Option, Result), `time.dfy` (Duration, Instant), `protos.dfy` (payloads), `cluster.dfy`
(server identities, `Error`), `transport.dfy` (`Env`, requests),
`rpc_client.dfy` (the client), `session.dfy` (scripts of operations),
`metrics.dfy` (the metrics boundary).

Behaviour of the code that a reader might not expect:
- In `src/cluster/rpc_client.rs`, a request timeout is returned as `Error::Nats` with I/O kind `TimedOut`. No other error variant reports a timeout (`TimeoutSurfacesAsNats`).
- In `src/cluster/rpc_client.rs`, `connect` passes only `config.address` to `nats::connect`. That file never uses the connection timeout, the reconnection attempts or the pending-message limit (`ConnectDependsOnlyOnAddress`).
- In `src/cluster/rpc_client.rs`, `push_to_user` makes the blocking request directly. `call` and `kick_user` make it on a blocking worker. A sequential model cannot show the difference.
- In `src/pitaya_core/src/metrics.rs`, the doc comment of `exponential_buckets` says it panics when the factor is smaller than one. The code asserts `factor > 1.0`, so a factor of exactly one panics too, and the model does the same.

## Model

| member | source | states |
|---|---|---|
| RpcClient.DefaultConfig | src/cluster/rpc_client.rs:37-46 | the default configuration: address `http://localhost:4222`, connection and request timeouts of 10 s, 5 reconnection attempts, 100 pending messages |
| RpcClient.New | src/cluster/rpc_client.rs:57-63 | a new client keeps the given configuration and holds no connection |
| RpcClient.Connect | src/cluster/rpc_client.rs:65-70 | callable only without a connection; succeeds exactly when connecting to the configured address succeeds, and then holds that connection; on failure returns `Nats` with the transport's error and leaves the client unchanged |
| RpcClient.Close | src/cluster/rpc_client.rs:72-76 | afterwards no connection is held and the configuration is kept; the connection closed is exactly the one that was held, if any |
| RpcClient.UserChecksOrder | src/cluster/rpc_client.rs:122-134 | the pre-I/O checks of kick and push fail in a fixed order: no connection, then empty user id, then empty kind, so both identifiers empty gives `InvalidUserId` |
| RpcClient.Call | src/cluster/rpc_client.rs:81-113 | without a connection: `NatsConnectionNotOpen` and no request. With one: exactly one request to the target's server topic, carrying the encoded request and the configured request timeout. Success is the decoded reply, `Nats` is the transport's error, `InvalidProto` is a reply that does not decode. The target is never rejected as an invalid id or kind |
| RpcClient.KickUser | src/cluster/rpc_client.rs:115-153 | rejects with the first failing check and sends nothing. Otherwise exactly one request to the user's kick topic for the kind, carrying the encoded kick message and the request timeout. Success is the decoded `KickAnswer`, `Nats` is the transport error, `InvalidProto` is an undecodable reply |
| RpcClient.PushToUser | src/cluster/rpc_client.rs:155-184 | rejects with the first failing check and sends nothing. Otherwise exactly one request to the user's message topic for the kind. The result is `Ok(())` if and only if that request got any reply, and never `InvalidProto` |
| RpcClient.CloseIsIdempotent | src/cluster/rpc_client.rs:72-76 | closing a closed client changes nothing and closes no connection |
| RpcClient.CloseRestoresFreshClient | src/cluster/rpc_client.rs:57-76 | after close the client equals a freshly created one with the same configuration, so connect may be called again and behaves as on a new client |
| RpcClient.ConnectDependsOnlyOnAddress | src/cluster/rpc_client.rs:65-70 | two clients whose configurations share the address connect with the same result and the same connection, whatever their timeouts and limits |
| RpcClient.KickUserIgnoresServerId | src/cluster/rpc_client.rs:115-153 | the result and the request of `kick_user` do not depend on the server id argument |
| RpcClient.PushToUserIgnoresServerId | src/cluster/rpc_client.rs:155-184 | the result and the request of `push_to_user` do not depend on the server id argument |
| RpcClient.KickAndPushRejectAlike | src/cluster/rpc_client.rs:122-173 | for the same user id and kind, kick and push reject exactly the same inputs with the same error |
| RpcClient.TimeoutSurfacesAsNats | src/cluster/rpc_client.rs:222-271 | when the transport times out, every operation that reaches the transport returns `Nats` with kind `TimedOut` |
| RpcClient.PushDiscardsReply | src/cluster/rpc_client.rs:178-183 | two transports that fail alike but reply with arbitrary contents give `push_to_user` the same result |
| Session.Apply | src/cluster/rpc_client.rs:65-70 | `connect` on a client that already holds a connection panics, returns no answer, sends nothing and leaves the client unchanged. Every other operation keeps the configuration, RPC operations leave the client as it was and send at most one request, and `connect` and `close` send none |
| Session.Run | src/cluster/rpc_client.rs:56-184 | driving a client through a script keeps its configuration and gives one answer per operation unless `connect` on a connected client panics. A run that panics stopped at a `connect` while the client held a connection, after answering every earlier operation, and a script without `connect` never panics. It issues at most one transport request per RPC operation, so there is no retry |
| Session.NoConnectionNoTraffic | src/cluster/rpc_client.rs:87-166 | a client that starts disconnected and never connects makes no transport request and never panics. It answers every operation, in order: each close answers `Closed` and each RPC operation answers `NatsConnectionNotOpen` |
| Session.RequestsUseHeldConnection | src/cluster/rpc_client.rs:65-184 | every request of a script travels on the connection the client started with, or on one that `nats::connect` returned for its address to a `connect` of the script, and carries the configured request timeout. A client that starts disconnected sends nothing unless a `connect` of the script succeeded |
| Session.DoubleCloseIsHarmless | src/cluster/rpc_client.rs:72-76 | closing twice in a row succeeds both times and leaves the client as one close does, disconnected |
| Session.RetryAfterFailedConnect | src/cluster/rpc_client.rs:65-70 | a failed connect answers `Nats` with the transport's error and leaves the client disconnected. A second connect then does not panic, and it connects once the broker is reachable |
| Session.ReconnectAfterClose | src/cluster/rpc_client.rs:65-76 | connect, close, connect all succeed, and the client ends up holding the handle the second connect returned |
| Session.CallAfterReconnectAvoidsClosedHandle | src/cluster/rpc_client.rs:65-113 | after connect, close, connect, a `call` sends exactly one request, on the handle of the second connect; when the broker gave a new handle, that request never travels on the closed one |
| Metrics.DummyReporterAlwaysSucceeds | src/pitaya_core/src/metrics.rs:62-98 | every `DummyReporter` method returns `Ok(())` for any arguments |
| Metrics.ExponentialBuckets | src/pitaya_core/src/metrics.rs:121-134 | panics with count zero, then with start not positive, then with factor not above one, in that order. Otherwise returns exactly `count` boundaries, the first equal to `start` and each the previous one times `factor`, the i-th being `start * factor^i` |
| Metrics.BucketsPositiveAndIncreasing | src/pitaya_core/src/metrics.rs:122-131 | under the function's preconditions every boundary is positive and the boundaries strictly increase |
| Time.Elapsed | src/pitaya_core/src/metrics.rs:143 | the time from one clock reading to a later one is their difference, and it saturates to zero when the readings are reversed |
| Metrics.RecordHistogramDuration | src/pitaya_core/src/metrics.rs:136-151 | observes the time elapsed since `start`, in seconds. A reporter failure is not propagated: it becomes exactly one warning `observe_hist failed` carrying the error, and success logs nothing |
| Metrics.AddToGauge | src/pitaya_core/src/metrics.rs:153-163 | adds to the gauge. A reporter failure is not propagated: it becomes exactly one warning `add_gauge failed` carrying the error, and success logs nothing |
| Metrics.DummyReporterNeverWarns | src/pitaya_core/src/metrics.rs:136-163 | with the no-op reporter neither helper logs a warning |

## Left out

- The blocking bridge (`tokio::task::spawn_blocking` and the outer `?` of `.await??`) is concurrency glue. The model gives the result of the blocking closure. A failure of the worker task itself is not modelled.
- The NATS library, wall-clock timeouts and the broker are not modelled. `Env.connect` and `Env.request` stand in for them. At each moment they may return any connection, reply or I/O error.
- The topic formats of `utils` are not part of this model, so they stay arbitrary functions. Nothing is claimed about kick and push topics being distinct.
- The protobuf encoding is generated foreign code, so the encoders and decoders stay arbitrary functions. The request encode/decode round trip is not modelled.
- RpcClient.Call: the error for an undecodable `Response` comes from a `From` conversion in the crate's `error.rs`, which is not part of this model. It is modelled as `InvalidProto`, the variant `kick_user` names explicitly.
- The crate's `Error` type is limited to the variants `src/cluster/rpc_client.rs` produces. A `std::io::Error` is reduced to its kind.
- Logging (`slog`, `trace!`) and the client's logger field are left out. The metrics helpers' warnings are kept as their returned log.
- Sharing the client across tasks (`Arc`, `Clone`) and the reporter's `RwLock` are concurrency concerns and are left out.
- Metrics.ExponentialBuckets: bucket values are exact reals, not IEEE doubles. Overflow to infinity, rounding and NaN arguments are not modelled, and `count` is unbounded rather than a `usize`.
- Metrics.RecordHistogramDuration: the reading of `Instant::now()` is a parameter. The elapsed time is converted to seconds as an exact real, not as an `f64`.
- `Duration` and `Instant` are whole nanoseconds without an upper bound. Rust's limits on seconds (`u64`) and on instants are not modelled.
- The NATS functions in `Env` are free to return anything at each moment. Nothing requires `nats::connect` to return a different handle each time. So no lemma states in general that a request never travels on a handle that was closed earlier. `ReconnectAfterClose` shows that the client then holds the handle of the second connect. `CallAfterReconnectAvoidsClosedHandle` shows, for connect, close, connect, call, that the call's request avoids the closed handle when the broker returns a new one.
- Registration options (`Opts`) are carried as data. What a real reporter does with them belongs to implementations outside this file.
- The C headers and the tests that need a live NATS or etcd server have no logic to model.

=== FILE: cluster.dfy ===
/**
 * Cluster identities and the client's error type. A `Server` is supplied by
 * service discovery; the RPC client only reads it to derive a topic.
 */
module Cluster {
  import opened Protos

  datatype ServerId = ServerId(id: string)

  datatype ServerKind = ServerKind(name: string)

  datatype Server = Server(
    id: ServerId,
    kind: ServerKind,
    hostname: string,
    frontend: bool,
    metadata: map<string, string>)

  /** The `std::io::ErrorKind` values the client distinguishes. */
  datatype IoErrorKind = TimedOut | OtherKind(name: string)

  /** An error reported by the NATS library (a `std::io::Error`). */
  datatype IoError = IoError(kind: IoErrorKind)

  /** The variants of the crate's `Error` that the RPC client produces. */
  datatype Error =
    | Nats(io: IoError)
    | NatsConnectionNotOpen
    | InvalidUserId
    | InvalidServerKind
    | InvalidProto(decode: DecodeError)
}

=== FILE: metrics.dfy ===
/**
 * The metrics boundary: the `Reporter` interface with its no-op
 * implementation, the exponential histogram buckets helper, and the two
 * convenience helpers that report and swallow reporter failures.
 * Bucket values are exact reals rather than IEEE doubles.
 */
module Metrics {
  import opened Wrappers
  import opened Time

  datatype MetricsError = InvalidMetric(detail: string) | FailedToStartServer(detail: string)

  datatype MetricKind = Histogram | Gauge | Counter

  datatype Opts = Opts(
    kind: MetricKind,
    namespace: string,
    subsystem: string,
    name: string,
    help: string,
    variableLabels: seq<string>,
    buckets: seq<real>)

  /** One call on the `Reporter` interface, with its arguments. */
  datatype ReporterCall =
    | RegisterCounter(opts: Opts)
    | RegisterHistogram(opts: Opts)
    | RegisterGauge(opts: Opts)
    | Start
    | Shutdown
    | IncCounter(name: string, labels: seq<string>)
    | ObserveHist(name: string, value: real, labels: seq<string>)
    | SetGauge(name: string, value: real, labels: seq<string>)
    | AddGauge(name: string, value: real, labels: seq<string>)

  /**
   * A reporter: the no-op `DummyReporter`, or some other backend whose
   * answers are given by `respond` (Prometheus, DogStatsD, ...).
   */
  datatype Reporter = DummyReporter | Backend(respond: ReporterCall -> Result<(), MetricsError>)

  function Invoke(reporter: Reporter, call: ReporterCall): Result<(), MetricsError>
  {
    match reporter
    case DummyReporter => Ok(())
    case Backend(respond) => respond(call)
  }

  /** Every method of `DummyReporter` succeeds, whatever its arguments. */
  lemma DummyReporterAlwaysSucceeds()
    ensures forall call :: Invoke(DummyReporter, call) == Ok(())
  {
  }

  // ---------------------------------------------------------------------
  // exponential_buckets
  // ---------------------------------------------------------------------

  /** Which of the function's assertions failed, in the order it checks them. */
  datatype BucketPanic = CountIsZero | StartNotPositive | FactorNotAboveOne

  /** `factor` raised to `n`. */
  function Pow(factor: real, n: nat): real
  {
    if n == 0 then 1.0 else Pow(factor, n - 1) * factor
  }

  /** The `i`-th bucket boundary: `start * factor^i`. */
  function Bucket(start: real, factor: real, i: nat): real
  {
    start * Pow(factor, i)
  }

  lemma NextBucket(start: real, factor: real, i: nat)
    ensures Bucket(start, factor, i + 1) == Bucket(start, factor, i) * factor
  {
  }

  /**
   * `exponential_buckets(start, factor, count)`: `count` boundaries starting
   * at `start`, each the previous one times `factor`. It panics unless
   * `count >= 1`, `start > 0` and `factor > 1`, checked in that order.
   */
  method ExponentialBuckets(start: real, factor: real, count: nat) returns (r: Result<seq<real>, BucketPanic>)
    ensures count < 1 ==> r == Err(CountIsZero)
    ensures count >= 1 && start <= 0.0 ==> r == Err(StartNotPositive)
    ensures count >= 1 && start > 0.0 && factor <= 1.0 ==> r == Err(FactorNotAboveOne)
    ensures r.Ok? <==> count >= 1 && start > 0.0 && factor > 1.0
    ensures r.Ok? ==> |r.value| == count && r.value[0] == start
    ensures r.Ok? ==> forall i :: 0 < i < count ==> r.value[i] == r.value[i - 1] * factor
    ensures r.Ok? ==> forall i :: 0 <= i < count ==> r.value[i] == Bucket(start, factor, i)
  {
    if count < 1 {
      return Err(CountIsZero);
    }
    if start <= 0.0 {
      return Err(StartNotPositive);
    }
    if factor <= 1.0 {
      return Err(FactorNotAboveOne);
    }
    var next := start;
    var buckets: seq<real> := [];
    var k := 0;
    while k < count
      invariant 0 <= k <= count
      invariant |buckets| == k
      invariant next == Bucket(start, factor, k)
      invariant forall i :: 0 <= i < k ==> buckets[i] == Bucket(start, factor, i)
    {
      buckets := buckets + [next];
      NextBucket(start, factor, k);
      next := next * factor;
      k := k + 1;
    }
    forall i | 0 < i < count
      ensures buckets[i] == buckets[i - 1] * factor
    {
      NextBucket(start, factor, i - 1);
    }
    return Ok(buckets);
  }

  lemma {:induction false} PowAtLeastOne(factor: real, n: nat)
    requires factor > 1.0
    ensures Pow(factor, n) >= 1.0
  {
    if n > 0 {
      PowAtLeastOne(factor, n - 1);
    }
  }

  lemma ProductOfPositives(x: real, y: real)
    requires x > 0.0 && y > 0.0
    ensures x * y > 0.0
  {
  }

  /**
   * Under the function's own preconditions every boundary is positive and the
   * boundaries strictly increase, as a histogram's buckets must.
   */
  lemma BucketsPositiveAndIncreasing(start: real, factor: real, i: nat)
    requires start > 0.0 && factor > 1.0
    ensures Bucket(start, factor, i) > 0.0
    ensures Bucket(start, factor, i) < Bucket(start, factor, i + 1)
  {
    PowAtLeastOne(factor, i);
    NextBucket(start, factor, i);
    var b, p := Bucket(start, factor, i), Pow(factor, i);
    ProductOfPositives(start, p);
    assert b > 0.0;
    ProductOfPositives(b, factor - 1.0);
    assert b * factor - b == b * (factor - 1.0);
  }

  // ---------------------------------------------------------------------
  // Helpers that swallow reporter failures
  // ---------------------------------------------------------------------

  /** A warning written to the log; the helpers' only way of reporting a failure. */
  datatype Warning = Warning(message: string, err: MetricsError)

  /**
   * `record_histogram_duration`: observes, in seconds, the time elapsed from
   * `start` to `now` (the clock reading `record_histogram_duration` takes itself) in the named
   * histogram. A reporter failure becomes one logged warning; the helper
   * itself returns nothing.
   */
  function RecordHistogramDuration(reporter: Reporter, name: string, start: Instant, now: Instant, labels: seq<string>): (log: seq<Warning>)
    ensures |log| <= 1
    ensures log == [] <==> Invoke(reporter, ObserveHist(name, AsSecs(Elapsed(start, now)), labels)).Ok?
    ensures log != [] ==>
      log[0] == Warning("observe_hist failed", Invoke(reporter, ObserveHist(name, AsSecs(Elapsed(start, now)), labels)).error)
  {
    var elapsed := Elapsed(start, now);
    match Invoke(reporter, ObserveHist(name, AsSecs(elapsed), labels))
    case Err(e) => [Warning("observe_hist failed", e)]
    case Ok(_) => []
  }

  /**
   * `add_to_gauge`: adds `value` to the named gauge. A reporter failure
   * becomes one logged warning; the helper itself returns nothing.
   */
  function AddToGauge(reporter: Reporter, name: string, value: real, labels: seq<string>): (log: seq<Warning>)
    ensures |log| <= 1
    ensures log == [] <==> Invoke(reporter, AddGauge(name, value, labels)).Ok?
    ensures log != [] ==>
      log[0] == Warning("add_gauge failed", Invoke(reporter, AddGauge(name, value, labels)).error)
  {
    match Invoke(reporter, AddGauge(name, value, labels))
    case Err(e) => [Warning("add_gauge failed", e)]
    case Ok(_) => []
  }

  /** With the no-op reporter neither helper ever logs a warning. */
  lemma DummyReporterNeverWarns(name: string, start: Instant, now: Instant, value: real, labels: seq<string>)
    ensures RecordHistogramDuration(DummyReporter, name, start, now, labels) == []
    ensures AddToGauge(DummyReporter, name, value, labels) == []
  {
  }
}

=== FILE: protos.dfy ===
/**
 * The protobuf payloads the RPC client sends and receives. Their wire
 * encoding belongs to generated code and is not modelled: only the fields
 * the client reads (`KickMsg.user_id`, `Push.uid`) matter to its logic, the
 * rest are carried along as plain data.
 */
module Protos {
  import opened Wrappers

  /** One octet of a wire buffer. */
  type Byte = b: int | 0 <= b < 256

  type Bytes = seq<Byte>

  /** The message carried inside a `Request`: type discriminator, route and payload. */
  datatype Msg = Msg(msgType: int, route: string, data: Bytes)

  datatype Request = Request(rpcType: int, msg: Option<Msg>, frontendId: string, metadata: Bytes)

  /** The application-level error a handler may put in its reply. */
  datatype ProtoError = ProtoError(code: string, msg: string)

  datatype Response = Response(data: Bytes, error: Option<ProtoError>)

  datatype KickMsg = KickMsg(userId: string)

  datatype KickAnswer = KickAnswer(kicked: bool)

  datatype Push = Push(uid: string, data: Bytes)

  /** What the protobuf decoder reports for bytes it cannot parse. */
  datatype DecodeError = DecodeError(description: string)
}

=== FILE: rpc_client.dfy ===
/**
 * The NATS-backed RPC client: its configuration, its connection lifecycle
 * (`new`, `connect`, `close`) and the three RPC operations (`call`,
 * `kick_user`, `push_to_user`). A client is an immutable value holding zero
 * or one connection; each operation is a pure function of the client, its
 * arguments and the collaborators in `Env`, and reports the transport
 * requests it issued alongside its result.
 */
module RpcClient {
  import opened Wrappers
  import opened Protos
  import opened Cluster
  import opened Transport
  import opened Time

  type U32 = x: int | 0 <= x < 0x1_0000_0000

  datatype Config = Config(
    address: string,
    connectionTimeout: Duration,
    requestTimeout: Duration,
    maxReconnectionAttempts: U32,
    maxPendingMessages: U32)

  /** `Config::default()`: a local broker, 10 s timeouts, 5 reconnection attempts, 100 pending messages. */
  function DefaultConfig(): (cfg: Config)
    ensures cfg.address == "http://localhost:4222"
    ensures cfg.connectionTimeout.nanos == 10_000_000_000 && cfg.requestTimeout.nanos == 10_000_000_000
    ensures cfg.maxReconnectionAttempts == 5 && cfg.maxPendingMessages == 100
  {
    Config("http://localhost:4222", FromSecs(10), FromSecs(10), 5, 100)
  }

  datatype NatsClient = NatsClient(config: Config, connection: Option<Connection>)

  /** The result of an RPC operation together with the transport requests it issued, in order. */
  datatype Exchange<T> = Exchange(result: Result<T, Error>, sent: seq<Outbound>)

  /** The client after `connect`, and what `connect` returned. */
  datatype Step = Step(client: NatsClient, result: Result<(), Error>)

  /** The client after `close`, and the connection it took and closed, if any. */
  datatype Closing = Closing(client: NatsClient, closed: Option<Connection>)

  // ---------------------------------------------------------------------
  // Lifecycle
  // ---------------------------------------------------------------------

  function New(config: Config): (c: NatsClient)
    ensures c.connection.None?
    ensures c.config == config
  {
    NatsClient(config, None)
  }

  /**
   * `connect` asserts that no connection is held, so holding one is a
   * precondition. Only the configured address reaches the broker; a failure
   * is returned before the client is touched.
   */
  function Connect(env: Env, c: NatsClient, at: nat): (r: Step)
    requires c.connection.None?
    ensures r.result.Ok? <==> env.connect(c.config.address, at).Ok?
    ensures r.result.Ok? ==> r.client == c.(connection := Some(env.connect(c.config.address, at).value))
    ensures r.result.Err? ==> r.client == c
    ensures r.result.Err? ==> r.result.error == Nats(env.connect(c.config.address, at).error)
  {
    match env.connect(c.config.address, at)
    case Err(e) => Step(c, Err(Nats(e)))
    case Ok(conn) => Step(c.(connection := Some(conn)), Ok(()))
  }

  /** `close` takes the connection out of the client (closing it) when there is one. */
  function Close(c: NatsClient): (r: Closing)
    ensures r.client.connection.None?
    ensures r.client.config == c.config
    ensures r.closed == c.connection
  {
    match c.connection
    case None => Closing(c, None)
    case Some(conn) => Closing(c.(connection := None), Some(conn))
  }

  // ---------------------------------------------------------------------
  // Identifier validation shared by kick_user and push_to_user
  // ---------------------------------------------------------------------

  /** A named condition an operation checks before any I/O, with the error it reports when false. */
  datatype Check = Check(holds: bool, error: Error)

  /** The error of the first check, in order, that does not hold. */
  function FirstFailed(checks: seq<Check>): (e: Option<Error>)
    ensures e.None? <==> forall i :: 0 <= i < |checks| ==> checks[i].holds
    ensures e.Some? ==> exists i :: 0 <= i < |checks| && !checks[i].holds && checks[i].error == e.value
                                  && forall j :: 0 <= j < i ==> checks[j].holds
  {
    if checks == [] then None
    else if !checks[0].holds then Some(checks[0].error)
    else
      var rest := FirstFailed(checks[1..]);
      if rest.Some? then
        ghost var i :| 0 <= i < |checks[1..]| && !checks[1..][i].holds
                        && checks[1..][i].error == rest.value
                        && forall j :: 0 <= j < i ==> checks[1..][j].holds;
        assert forall j :: 0 <= j < i + 1 ==> checks[j].holds by {
          forall j | 0 <= j < i + 1 ensures checks[j].holds {
            if j > 0 { assert checks[j] == checks[1..][j - 1]; }
          }
        }
        rest
      else
        assert forall i :: 1 <= i < |checks| ==> checks[i] == checks[1..][i - 1];
        rest
  }

  /**
   * The checks `kick_user` and `push_to_user` make, in the order they make
   * them: a connection is held, the user id is non-empty, the server kind is
   * non-empty. The server id is not among them.
   */
  function UserChecks(c: NatsClient, userId: string, kind: ServerKind): seq<Check>
  {
    [ Check(c.connection.Some?, NatsConnectionNotOpen),
      Check(userId != [], InvalidUserId),
      Check(kind.name != [], InvalidServerKind) ]
  }

  /**
   * The checks fail in a fixed order: no connection first, then an empty
   * user id, then an empty kind. With both identifiers empty the verdict is
   * `InvalidUserId`.
   */
  lemma {:induction false} UserChecksOrder(c: NatsClient, userId: string, kind: ServerKind)
    ensures FirstFailed(UserChecks(c, userId, kind)) ==
      if c.connection.None? then Some(NatsConnectionNotOpen)
      else if userId == [] then Some(InvalidUserId)
      else if kind.name == [] then Some(InvalidServerKind)
      else None
  {
    var checks := UserChecks(c, userId, kind);
    assert checks[1..][1..] == [checks[2]];
    assert [checks[2]][1..] == [];
  }

  /** Maps the transport outcome of a request, and the decoding of its reply, to the client's `Error`. */
  function DecodedReply<T>(reply: Result<Message, IoError>, decode: Bytes -> Result<T, DecodeError>): Result<T, Error>
  {
    match reply
    case Err(e) => Err(Nats(e))
    case Ok(m) =>
      match decode(m.data)
      case Err(d) => Err(InvalidProto(d))
      case Ok(v) => Ok(v)
  }

  // ---------------------------------------------------------------------
  // The RpcClient operations
  // ---------------------------------------------------------------------

  /**
   * `call`: one request on the target server's topic, carrying the encoded
   * request, bounded by the configured request timeout; the reply is decoded
   * as a `Response`. The target is not validated.
   */
  function Call(env: Env, c: NatsClient, at: nat, target: Server, req: Request): (r: Exchange<Response>)
    ensures c.connection.None? <==> r.result == Err(NatsConnectionNotOpen)
    ensures c.connection.None? ==> r.sent == []
    ensures c.connection.Some? ==>
      r.sent == [Outbound(c.connection.value, env.topicForServer(target), env.encodeRequest(req), c.config.requestTimeout)]
    ensures r.result.Ok? ==>
      |r.sent| == 1 && env.request(r.sent[0], at).Ok?
      && env.decodeResponse(env.request(r.sent[0], at).value.data) == Ok(r.result.value)
    ensures r.result.Err? && r.result.error.Nats? ==>
      |r.sent| == 1 && env.request(r.sent[0], at) == Err(r.result.error.io)
    ensures r.result.Err? && r.result.error.InvalidProto? ==>
      |r.sent| == 1 && env.request(r.sent[0], at).Ok?
      && env.decodeResponse(env.request(r.sent[0], at).value.data) == Err(r.result.error.decode)
    ensures r.sent != [] ==> r.result.Ok? || r.result.error.Nats? || r.result.error.InvalidProto?
  {
    match c.connection
    case None => Exchange(Err(NatsConnectionNotOpen), [])
    case Some(conn) =>
      var out := Outbound(conn, env.topicForServer(target), env.encodeRequest(req), c.config.requestTimeout);
      Exchange(DecodedReply(env.request(out, at), env.decodeResponse), [out])
  }

  /**
   * `kick_user`: after the checks of `UserChecks`, one request on the user's
   * kick topic for the kind, carrying the encoded kick message; the reply is
   * decoded as a `KickAnswer`. The server id is accepted and ignored.
   */
  function KickUser(env: Env, c: NatsClient, at: nat, serverId: ServerId, kind: ServerKind, msg: KickMsg): (r: Exchange<KickAnswer>)
    ensures FirstFailed(UserChecks(c, msg.userId, kind)).Some? ==>
      r.result == Err(FirstFailed(UserChecks(c, msg.userId, kind)).value) && r.sent == []
    ensures FirstFailed(UserChecks(c, msg.userId, kind)).None? ==>
      r.sent == [Outbound(c.connection.value, env.userKickTopic(msg.userId, kind), env.encodeKickMsg(msg), c.config.requestTimeout)]
    ensures r.result.Ok? ==>
      |r.sent| == 1 && env.request(r.sent[0], at).Ok?
      && env.decodeKickAnswer(env.request(r.sent[0], at).value.data) == Ok(r.result.value)
    ensures r.result.Err? && r.result.error.Nats? ==>
      |r.sent| == 1 && env.request(r.sent[0], at) == Err(r.result.error.io)
    ensures r.result.Err? && r.result.error.InvalidProto? ==>
      |r.sent| == 1 && env.request(r.sent[0], at).Ok?
      && env.decodeKickAnswer(env.request(r.sent[0], at).value.data) == Err(r.result.error.decode)
    ensures r.sent != [] ==> r.result.Ok? || r.result.error.Nats? || r.result.error.InvalidProto?
  {
    UserChecksOrder(c, msg.userId, kind);
    match c.connection
    case None => Exchange(Err(NatsConnectionNotOpen), [])
    case Some(conn) =>
      if msg.userId == [] then Exchange(Err(InvalidUserId), [])
      else if kind.name == [] then Exchange(Err(InvalidServerKind), [])
      else
        var out := Outbound(conn, env.userKickTopic(msg.userId, kind), env.encodeKickMsg(msg), c.config.requestTimeout);
        Exchange(DecodedReply(env.request(out, at), env.decodeKickAnswer), [out])
  }

  /**
   * `push_to_user`: after the checks of `UserChecks`, one request on the
   * user's message topic for the kind, carrying the encoded push. The reply
   * is discarded: any reply is success, only a transport error fails.
   */
  function PushToUser(env: Env, c: NatsClient, at: nat, serverId: ServerId, kind: ServerKind, msg: Push): (r: Exchange<()>)
    ensures FirstFailed(UserChecks(c, msg.uid, kind)).Some? ==>
      r.result == Err(FirstFailed(UserChecks(c, msg.uid, kind)).value) && r.sent == []
    ensures FirstFailed(UserChecks(c, msg.uid, kind)).None? ==>
      r.sent == [Outbound(c.connection.value, env.userMessagesTopic(msg.uid, kind), env.encodePush(msg), c.config.requestTimeout)]
    ensures r.result.Ok? <==> |r.sent| == 1 && env.request(r.sent[0], at).Ok?
    ensures r.result.Err? && r.result.error.Nats? ==>
      |r.sent| == 1 && env.request(r.sent[0], at) == Err(r.result.error.io)
    ensures r.sent != [] ==> r.result.Ok? || r.result.error.Nats?
  {
    UserChecksOrder(c, msg.uid, kind);
    match c.connection
    case None => Exchange(Err(NatsConnectionNotOpen), [])
    case Some(conn) =>
      if msg.uid == [] then Exchange(Err(InvalidUserId), [])
      else if kind.name == [] then Exchange(Err(InvalidServerKind), [])
      else
        var out := Outbound(conn, env.userMessagesTopic(msg.uid, kind), env.encodePush(msg), c.config.requestTimeout);
        match env.request(out, at)
        case Err(e) => Exchange(Err(Nats(e)), [out])
        case Ok(_) => Exchange(Ok(()), [out])
  }

  // ---------------------------------------------------------------------
  // Properties relating several calls
  // ---------------------------------------------------------------------

  /** Closing an already closed client changes nothing and takes no connection. */
  lemma CloseIsIdempotent(c: NatsClient)
    ensures Close(Close(c).client) == Closing(Close(c).client, None)
  {
  }

  /** After `close` the client is exactly a fresh one, so `connect` may be called again. */
  lemma CloseRestoresFreshClient(env: Env, c: NatsClient, at: nat)
    ensures Close(c).client == New(c.config)
    ensures Connect(env, Close(c).client, at) == Connect(env, New(c.config), at)
  {
  }

  /**
   * Only the address reaches `nats::connect`: two configurations with the
   * same address connect alike, whatever their timeouts and limits.
   */
  lemma ConnectDependsOnlyOnAddress(env: Env, c1: NatsClient, c2: NatsClient, at: nat)
    requires c1.connection.None? && c2.connection.None?
    requires c1.config.address == c2.config.address
    ensures Connect(env, c1, at).result == Connect(env, c2, at).result
    ensures Connect(env, c1, at).client.connection == Connect(env, c2, at).client.connection
  {
  }

  /** `kick_user` gives the same result and sends the same request whatever server id it is passed. */
  lemma KickUserIgnoresServerId(env: Env, c: NatsClient, at: nat, id1: ServerId, id2: ServerId, kind: ServerKind, msg: KickMsg)
    ensures KickUser(env, c, at, id1, kind, msg) == KickUser(env, c, at, id2, kind, msg)
  {
  }

  /** `push_to_user` gives the same result and sends the same request whatever server id it is passed. */
  lemma PushToUserIgnoresServerId(env: Env, c: NatsClient, at: nat, id1: ServerId, id2: ServerId, kind: ServerKind, msg: Push)
    ensures PushToUser(env, c, at, id1, kind, msg) == PushToUser(env, c, at, id2, kind, msg)
  {
  }

  /**
   * `kick_user` and `push_to_user` for the same user and kind reject exactly
   * the same inputs, with the same error, before any I/O.
   */
  lemma KickAndPushRejectAlike(env: Env, c: NatsClient, at: nat, id: ServerId, kind: ServerKind, kick: KickMsg, push: Push)
    requires kick.userId == push.uid
    ensures KickUser(env, c, at, id, kind, kick).sent == [] <==> PushToUser(env, c, at, id, kind, push).sent == []
    ensures KickUser(env, c, at, id, kind, kick).sent == [] ==>
      KickUser(env, c, at, id, kind, kick).result.Err?
      && PushToUser(env, c, at, id, kind, push).result == Err(KickUser(env, c, at, id, kind, kick).result.error)
  {
  }

  /**
   * A request that times out surfaces as `Error::Nats` carrying the
   * `TimedOut` kind, in every operation; there is no separate timeout error.
   */
  lemma TimeoutSurfacesAsNats(env: Env, c: NatsClient, at: nat, target: Server, req: Request,
                              id: ServerId, kind: ServerKind, kick: KickMsg, push: Push)
    requires forall o :: env.request(o, at) == Err(IoError(TimedOut))
    ensures c.connection.Some? ==> Call(env, c, at, target, req).result == Err(Nats(IoError(TimedOut)))
    ensures FirstFailed(UserChecks(c, kick.userId, kind)).None? ==>
      KickUser(env, c, at, id, kind, kick).result == Err(Nats(IoError(TimedOut)))
    ensures FirstFailed(UserChecks(c, push.uid, kind)).None? ==>
      PushToUser(env, c, at, id, kind, push).result == Err(Nats(IoError(TimedOut)))
  {
  }

  /**
   * The push reply is never read: two transports that fail alike but answer
   * with arbitrary, possibly different, replies give the same result.
   */
  lemma PushDiscardsReply(env1: Env, env2: Env, c: NatsClient, at: nat, id: ServerId, kind: ServerKind, msg: Push)
    requires env1.userMessagesTopic == env2.userMessagesTopic && env1.encodePush == env2.encodePush
    requires forall o :: (env1.request(o, at).Ok? && env2.request(o, at).Ok?) || env1.request(o, at) == env2.request(o, at)
    ensures PushToUser(env1, c, at, id, kind, msg) == PushToUser(env2, c, at, id, kind, msg)
  {
  }
}

=== FILE: session.dfy ===
/**
 * A client driven through a script of operations, the way its owner uses
 * it: connect, any number of RPC operations, close, perhaps connect again.
 * `Run` threads the client value through the script and collects every
 * answer and every transport request. A `connect` on a client that already
 * holds a connection trips `connect`'s `assert!` and stops the script.
 * The operation at position `i` of a script started at moment `at` runs at
 * moment `at + i`.
 */
module Session {
  import opened Wrappers
  import opened Protos
  import opened Cluster
  import opened Transport
  import opened RpcClient

  datatype Op =
    | DoConnect
    | DoClose
    | DoCall(target: Server, req: Request)
    | DoKick(serverId: ServerId, kind: ServerKind, kick: KickMsg)
    | DoPush(serverId: ServerId, kind: ServerKind, push: Push)

  predicate IsRpc(op: Op) {
    op.DoCall? || op.DoKick? || op.DoPush?
  }

  datatype Answer = Connected | Closed | Responded(response: Response) | Kicked(answer: KickAnswer) | Pushed

  /**
   * One operation applied: the client after it, its answer, its requests, and
   * whether it panicked. A panicking operation returns nothing, so its answer
   * is `None`.
   */
  datatype Applied = Applied(client: NatsClient, answer: Option<Result<Answer, Error>>, sent: seq<Outbound>, panicked: bool)

  datatype Trace = Trace(client: NatsClient, answers: seq<Result<Answer, Error>>, sent: seq<Outbound>, panicked: bool)

  function Lift<T>(r: Result<T, Error>, wrap: T -> Answer): Result<Answer, Error>
  {
    match r
    case Ok(v) => Ok(wrap(v))
    case Err(e) => Err(e)
  }

  /**
   * One operation at moment `at`. A `connect` on a client that already holds
   * a connection panics (`connect`'s `assert!`), returns no answer and
   * changes nothing.
   */
  function Apply(env: Env, c: NatsClient, op: Op, at: nat): (a: Applied)
    ensures a.client.config == c.config
    ensures !IsRpc(op) ==> a.sent == []
    ensures IsRpc(op) ==> a.client == c && |a.sent| <= 1
    ensures a.panicked <==> op.DoConnect? && c.connection.Some?
    ensures a.panicked ==> a.client == c && a.sent == []
    ensures a.answer.None? <==> a.panicked
  {
    match op
    case DoConnect =>
      if c.connection.Some? then Applied(c, None, [], true)
      else
        var s := Connect(env, c, at);
        Applied(s.client, Some(Lift(s.result, _ => Connected)), [], false)
    case DoClose => Applied(Close(c).client, Some(Ok(Closed)), [], false)
    case DoCall(target, req) =>
      var x := Call(env, c, at, target, req);
      Applied(c, Some(Lift(x.result, r => Responded(r))), x.sent, false)
    case DoKick(id, kind, kick) =>
      var x := KickUser(env, c, at, id, kind, kick);
      Applied(c, Some(Lift(x.result, k => Kicked(k))), x.sent, false)
    case DoPush(id, kind, push) =>
      var x := PushToUser(env, c, at, id, kind, push);
      Applied(c, Some(Lift(x.result, (_: ()) => Pushed)), x.sent, false)
  }

  /** The number of RPC operations in a script. */
  function RpcCount(ops: seq<Op>): nat
  {
    if ops == [] then 0 else (if IsRpc(ops[0]) then 1 else 0) + RpcCount(ops[1..])
  }

  /**
   * Runs a script. The configuration never changes, there is one answer per
   * operation unless a panic cut the script short, and there is at most one
   * transport request per RPC operation: the client never retries. A run
   * stops short only at a `connect` on a client that holds a connection.
   */
  function Run(env: Env, c: NatsClient, ops: seq<Op>, at: nat): (t: Trace)
    ensures t.client.config == c.config
    ensures |t.answers| <= |ops|
    ensures !t.panicked ==> |t.answers| == |ops|
    ensures |t.sent| <= RpcCount(ops)
    ensures t.panicked ==> |t.answers| < |ops| && ops[|t.answers|].DoConnect? && t.client.connection.Some?
    ensures (forall i :: 0 <= i < |ops| ==> !ops[i].DoConnect?) ==> !t.panicked
    decreases |ops|
  {
    if ops == [] then Trace(c, [], [], false)
    else
      var a := Apply(env, c, ops[0], at);
      if a.panicked then Trace(c, [], [], true)
      else
        var rest := Run(env, a.client, ops[1..], at + 1);
        Trace(rest.client, [a.answer.value] + rest.answers, a.sent + rest.sent, rest.panicked)
  }

  /**
   * Starting without a connection and never connecting, no transport
   * request is ever made: each RPC operation answers `NatsConnectionNotOpen`
   * and each close answers `Closed`.
   */
  lemma {:induction false} NoConnectionNoTraffic(env: Env, c: NatsClient, ops: seq<Op>, at: nat)
    requires c.connection.None?
    requires forall i :: 0 <= i < |ops| ==> !ops[i].DoConnect?
    ensures Run(env, c, ops, at).sent == []
    ensures !Run(env, c, ops, at).panicked
    ensures |Run(env, c, ops, at).answers| == |ops|
    ensures forall k :: 0 <= k < |ops| ==>
      Run(env, c, ops, at).answers[k] == (if ops[k].DoClose? then Ok(Closed) else Err(NatsConnectionNotOpen))
    decreases |ops|
  {
    if ops != [] {
      var a := Apply(env, c, ops[0], at);
      assert !ops[0].DoConnect?;
      assert a.client.connection.None?;
      match ops[0] {
        case DoKick(_, kind, kick) => UserChecksOrder(c, kick.userId, kind);
        case DoPush(_, kind, push) => UserChecksOrder(c, push.uid, kind);
        case _ =>
      }
      assert a.answer == Some(if ops[0].DoClose? then Ok(Closed) else Err(NatsConnectionNotOpen));
      assert forall i :: 0 <= i < |ops[1..]| ==> ops[1..][i] == ops[i + 1];
      NoConnectionNoTraffic(env, a.client, ops[1..], at + 1);
      var rest := Run(env, a.client, ops[1..], at + 1);
      assert Run(env, c, ops, at).answers == [a.answer.value] + rest.answers;
    }
  }

  /**
   * A `connect` of the script `ops`, started at moment `from`, ran at moment
   * `t` and `nats::connect` gave it `conn` for `address`.
   */
  ghost predicate ConnectedAt(env: Env, address: string, from: nat, ops: seq<Op>, t: int, conn: Connection)
  {
    from <= t < from + |ops| && ops[t - from].DoConnect? && env.connect(address, t) == Ok(conn)
  }

  /** Some `connect` of the script `ops`, started at moment `from`, got `conn` for `address`. */
  ghost predicate ConnectedDuring(env: Env, address: string, from: nat, ops: seq<Op>, conn: Connection)
  {
    exists t :: ConnectedAt(env, address, from, ops, t, conn)
  }

  /**
   * A connection a client may hold during the script `ops` from moment
   * `from`: the one it started with, or one that `nats::connect` returned for
   * its address to a `connect` of the script.
   */
  ghost predicate ConnectionFrom(env: Env, start: Option<Connection>, address: string, from: nat, ops: seq<Op>, conn: Connection)
  {
    start == Some(conn) || ConnectedDuring(env, address, from, ops, conn)
  }

  /**
   * Every request of a run travels on a connection the client legitimately
   * holds and is bounded by the configured request timeout; a client that
   * starts disconnected sends nothing unless some `connect` of the script
   * succeeded.
   */
  lemma {:induction false} RequestsUseHeldConnection(env: Env, c: NatsClient, ops: seq<Op>, at: nat)
    ensures forall k :: 0 <= k < |Run(env, c, ops, at).sent| ==>
      ConnectionFrom(env, c.connection, c.config.address, at, ops, Run(env, c, ops, at).sent[k].conn)
      && Run(env, c, ops, at).sent[k].timeout == c.config.requestTimeout
    ensures c.connection.None? && Run(env, c, ops, at).sent != [] ==>
      exists t :: at <= t < at + |ops| && ops[t - at].DoConnect? && env.connect(c.config.address, t).Ok?
    decreases |ops|
  {
    if ops != [] {
      var a := Apply(env, c, ops[0], at);
      if !a.panicked {
        var addr := c.config.address;
        var tail := ops[1..];
        RequestsUseHeldConnection(env, a.client, tail, at + 1);
        var rest := Run(env, a.client, tail, at + 1);
        assert Run(env, c, ops, at).sent == a.sent + rest.sent;
        // the connection held after the first operation is one the client may hold
        assert a.client.connection.Some? ==>
          ConnectionFrom(env, c.connection, addr, at, ops, a.client.connection.value) by {
          if a.client.connection.Some? && c.connection != a.client.connection {
            assert ConnectedAt(env, addr, at, ops, at, a.client.connection.value);
          }
        }
        forall conn | ConnectionFrom(env, a.client.connection, addr, at + 1, tail, conn)
          ensures ConnectionFrom(env, c.connection, addr, at, ops, conn)
        {
          if ConnectedDuring(env, addr, at + 1, tail, conn) {
            var t :| ConnectedAt(env, addr, at + 1, tail, t, conn);
            assert tail[t - (at + 1)] == ops[t - at];
            assert ConnectedAt(env, addr, at, ops, t, conn);
          }
        }
        forall k | 0 <= k < |a.sent|
          ensures ConnectionFrom(env, c.connection, addr, at, ops, a.sent[k].conn)
          ensures a.sent[k].timeout == c.config.requestTimeout
        {
          assert c.connection.Some? && a.sent[k].conn == c.connection.value;
        }
        var sent := Run(env, c, ops, at).sent;
        if c.connection.None? && sent != [] {
          assert ConnectionFrom(env, c.connection, addr, at, ops, sent[0].conn);
          var t :| ConnectedAt(env, addr, at, ops, t, sent[0].conn);
        }
      }
    }
  }

  /** Closing twice in a row leaves the client as closing once does, and answers `Closed` both times. */
  lemma DoubleCloseIsHarmless(env: Env, c: NatsClient, at: nat)
    ensures Run(env, c, [DoClose, DoClose], at).client == Run(env, c, [DoClose], at).client
    ensures Run(env, c, [DoClose, DoClose], at).client.connection.None?
    ensures Run(env, c, [DoClose, DoClose], at).answers == [Ok(Closed), Ok(Closed)]
  {
  }

  /**
   * A failed connect leaves the client disconnected and may be retried: when
   * the broker becomes reachable, the second attempt connects.
   */
  lemma RetryAfterFailedConnect(env: Env, cfg: Config, at: nat, e: IoError, conn: Connection)
    requires env.connect(cfg.address, at) == Err(e)
    requires env.connect(cfg.address, at + 1) == Ok(conn)
    ensures Run(env, New(cfg), [DoConnect, DoConnect], at).answers == [Err(Nats(e)), Ok(Connected)]
    ensures !Run(env, New(cfg), [DoConnect, DoConnect], at).panicked
    ensures Run(env, New(cfg), [DoConnect, DoConnect], at).client.connection == Some(conn)
  {
  }

  /**
   * Connect, close, connect: the client ends up holding the handle of the
   * second connect, so when the broker hands out a new handle the closed
   * one is not used again.
   */
  lemma ReconnectAfterClose(env: Env, cfg: Config, at: nat, first: Connection, second: Connection)
    requires env.connect(cfg.address, at) == Ok(first)
    requires env.connect(cfg.address, at + 2) == Ok(second)
    ensures Run(env, New(cfg), [DoConnect, DoClose, DoConnect], at).answers == [Ok(Connected), Ok(Closed), Ok(Connected)]
    ensures Run(env, New(cfg), [DoConnect, DoClose, DoConnect], at).client.connection == Some(second)
  {
  }

  /**
   * Connect, close, connect, call: when the broker hands the second connect a
   * new handle, the call's one request travels on that handle, never on the
   * closed one.
   */
  lemma {:induction false} CallAfterReconnectAvoidsClosedHandle(env: Env, cfg: Config, at: nat, first: Connection, second: Connection, target: Server, req: Request)
    requires env.connect(cfg.address, at) == Ok(first)
    requires env.connect(cfg.address, at + 2) == Ok(second)
    requires first != second
    ensures |Run(env, New(cfg), [DoConnect, DoClose, DoConnect, DoCall(target, req)], at).sent| == 1
    ensures Run(env, New(cfg), [DoConnect, DoClose, DoConnect, DoCall(target, req)], at).sent[0].conn == second
    ensures Run(env, New(cfg), [DoConnect, DoClose, DoConnect, DoCall(target, req)], at).sent[0].conn != first
  {
    var ops := [DoConnect, DoClose, DoConnect, DoCall(target, req)];
    var c := NatsClient(cfg, Some(second));
    var out := Outbound(second, env.topicForServer(target), env.encodeRequest(req), cfg.requestTimeout);
    assert Run(env, c, ops[3..], at + 3).sent == [out];
    assert Run(env, NatsClient(cfg, None), ops[2..], at + 2).sent == [out];
    assert Run(env, NatsClient(cfg, Some(first)), ops[1..], at + 1).sent == [out];
    assert Run(env, New(cfg), ops, at).sent == [out];
  }
}

=== FILE: time.dfy ===
/**
 * `std::time::Duration` and `std::time::Instant`, both kept in whole
 * nanoseconds, the resolution Rust stores them with.
 */
module Time {

  /** A span of time in nanoseconds. */
  datatype Duration = Duration(nanos: nat)

  function FromSecs(secs: nat): Duration
  {
    Duration(secs * 1_000_000_000)
  }

  /** `Duration::as_secs_f64`, as an exact real. */
  function AsSecs(d: Duration): real
  {
    d.nanos as real / 1_000_000_000.0
  }

  /** A reading of the monotonic clock, in nanoseconds since an arbitrary origin. */
  datatype Instant = Instant(nanos: nat)

  /** `later - earlier` on instants, which saturates to zero when `earlier` is the later one. */
  function Elapsed(earlier: Instant, later: Instant): (d: Duration)
    ensures earlier.nanos <= later.nanos ==> earlier.nanos + d.nanos == later.nanos
    ensures earlier.nanos > later.nanos ==> d.nanos == 0
  {
    if earlier.nanos <= later.nanos then Duration(later.nanos - earlier.nanos) else Duration(0)
  }
}

=== FILE: transport.dfy ===
/**
 * The collaborators the RPC client calls but does not define: the topic
 * builders of `utils`, the protobuf encoders and decoders, and the NATS
 * library. They are gathered in `Env` as total functions, so every statement
 * about the client holds for every topic scheme, codec and broker behaviour.
 *
 * The broker's answers change over time: `connect` and `request` also take
 * the moment of the call, a count of the client operations before it, so a
 * retried connect may succeed and each connect may return a new handle.
 */
module Transport {
  import opened Wrappers
  import opened Protos
  import opened Cluster
  import opened Time

  /** A live NATS connection handle, opaque to the client. */
  datatype Connection = Connection(handle: nat)

  type Topic = string

  /** One request-with-timeout issued on a connection. */
  datatype Outbound = Outbound(conn: Connection, topic: Topic, payload: Bytes, timeout: Duration)

  /** The reply NATS hands back (`nats::Message`); only its data is read. */
  datatype Message = Message(data: Bytes)

  datatype Env = Env(
    topicForServer: Server -> Topic,
    userKickTopic: (string, ServerKind) -> Topic,
    userMessagesTopic: (string, ServerKind) -> Topic,
    encodeRequest: Request -> Bytes,
    encodeKickMsg: KickMsg -> Bytes,
    encodePush: Push -> Bytes,
    decodeResponse: Bytes -> Result<Response, DecodeError>,
    decodeKickAnswer: Bytes -> Result<KickAnswer, DecodeError>,
    /** `nats::connect(address)` at a given moment: a connection, or the I/O error it failed with */
    connect: (string, nat) -> Result<Connection, IoError>,
    /** `Connection::request_timeout` at a given moment: the reply, or the I/O error (a timeout among them) */
    request: (Outbound, nat) -> Result<Message, IoError>)
}

=== FILE: wrappers.dfy ===
/** Option and Result in the shape the Rust code uses them (`Option<T>`, `Result<T, E>`). */
module Wrappers {

  datatype Option<+T> = None | Some(value: T)

  datatype Result<+T, +E> = Ok(value: T) | Err(error: E)
}
